=== FILE: README.md ===
# generate_slideshow request handler — a Dafny model

This project models `generateSlideshow`, the single tool of the pptx-automizer
MCP server. The handler takes untyped JSON tool arguments and does four things:

1. It checks that the five required properties are truthy and that the template directory exists.
2. It creates the output directory when it is missing.
3. It drives the composition engine through a fixed sequence of calls:
   create, `loadRoot`, `load` per auxiliary template, `loadMedia`, `addSlide` per slide, `write`.
4. It turns the outcome, or any exception, into `{success, message, outputPath?}`.

Each slide is appended with a callback. The callback applies the slide's text
replacements and then its image replacements, each in declared order.

The model is a pure function `Slideshow.GenerateSlideshow(args, host)`. It
returns the trace of effects the handler performs (directory creation and
engine calls) together with how the handler's promise settles: resolved with
the result, or rejected when the `catch` clause itself throws. When `args` is
present, the work is done by `Slideshow.Generate(request, host)`. The outside
world is the `Host` value:

- `pathExists` stands for `fs.existsSync`;
- `join` stands for `path.join`, which may throw a TypeError;
- `failure` names the one foreign call, by its index in the trace, that throws.

The engine is never executed. Its calls are datatype values. The per-slide
callback is a value too: the calls it makes on the slide handle, and the
TypeError that stops it, if any.

Request values are JSON (`JsValues.Json`). The model uses JavaScript
truthiness, property reads that throw on `null`/`undefined`, `for...of`
iteration, and `String(v)` in template literals, which throws for an object
with an own `toString` property. Where the behaviour may surprise a reader,
the model follows the code:

- an empty `slides` array is accepted;
- the success message is "Slideshow generated successfully. Output: <path>";
- every post-validation failure message starts with "Error generating slideshow: ";
- so does the message when `arguments` is absent, or when the missing template directory's name cannot be converted to a string;
- a truthy string in `slides` is iterated character by character;
- `templates` and `mediaFiles` are used only when they are arrays.

Modules, leaves first:

- `Wrappers` — `Option`, `Result`.
- `JsValues` — JSON values, truthiness, property reads, iteration, string conversion, thrown values.
- `Runs` — a run of calls that may stop at a throw; `Traverse`, the model of a `for...of` loop whose body may throw.
- `ReplacementMapper` — `{tag, text, style?}` to `{replace, by: {text, style?}}`, and the fixed `{{` / `}}` delimiters.
- `SlidePlan` — the per-slide callback.
- `Slideshow` — the request, engine options, effects, validation, planned trace and `Generate`.
- `SlideshowProperties` — lemmas about whole runs.

## Model

| member | source | states |
|---|---|---|
| JsValues.Prop | mcp/server.ts:227 | a property read throws exactly on null or undefined; otherwise it yields the property, undefined when absent |
| JsValues.FalsyValues | mcp/server.ts:193 | the values JavaScript treats as false (in `!args.x`, in the `&&` guards, in `r.style ? … : …` and in the `mediaDir` fallback) are exactly `undefined`, `null`, `false`, `0` and `""`; this characterises `IsTruthy` |
| JsValues.ToJsString | mcp/server.ts:204 | `String(v)` returns iff the value is convertible: no object in it has an own `toString` key; otherwise it throws "Cannot convert object to primitive value"; a string converts to itself and a plain object to "[object Object]"; an array converts iff each of its non-nullish items does |
| JsValues.JoinItems | mcp/server.ts:204 | the `join` that `String()` applies to an array's items returns iff every item is nullish or convertible, and otherwise throws "Cannot convert object to primitive value" |
| JsValues.Describe | mcp/server.ts:286 | the `catch` text is `error.message` for an `Error`, and `String(error)` otherwise, which throws exactly for a non-convertible thrown value |
| JsValues.ReadOfUndefinedMessage | mcp/server.ts:193 | reading a property of `undefined` reports "Cannot read properties of undefined (reading 'key')" |
| JsValues.NotIterableMessage | mcp/server.ts:238 | a `for...of` over a value that is not iterable reports "<expression> is not iterable" |
| JsValues.Iterate | mcp/server.ts:238 | `for...of` over `slides` yields an array's items or one string per character; any other value throws "not iterable" |
| Runs.Traverse | mcp/server.ts:226-228 | a loop makes one call per element, in order, and stops at the first element whose body throws, with that element's exception |
| Runs.TraverseFaultIsFirstFailure | mcp/server.ts:238-272 | a loop throws iff some element's body throws, and the elements before the thrower all succeeded |
| Runs.TraverseThenTotal | mcp/server.ts:241-270 | two loops in a row in which nothing throws make one call per element of the first, then one per element of the second |
| Runs.TraverseAppend | mcp/server.ts:242-260 | looping over a concatenation is looping over the first part and then, if it did not throw, the second |
| ReplacementMapper.MapEntry | mcp/server.ts:243-251 | one entry maps to `replace = tag`, `by.text = text`; `by.style` is present iff the input style is truthy and is then the input's own value; a nullish entry throws on reading `tag` |
| ReplacementMapper.MapReplacements | mcp/server.ts:243-251 | `.map` throws on a nullish list and on a non-array; on an array it succeeds iff no entry is nullish, keeps length and order, and otherwise throws at the first nullish entry |
| ReplacementMapper.MapperPreservesEntries | mcp/server.ts:243-251 | every output entry copies its input's tag and text, and carries a style exactly when the input's style is truthy |
| ReplacementMapper.MapperDistributesOverConcat | mcp/server.ts:243 | mapping never reorders, merges or deduplicates entries |
| ReplacementMapper.PlainEntryMapsWithoutStyle | mcp/server.ts:245-250 | an entry with no style gives an instruction with no `style` key |
| ReplacementMapper.ThreePlainEntriesExample | __tests__/mcp-server-integration.test.ts:33-51 | any three style-less entries become three style-less instructions in the same order |
| ReplacementMapper.StyleExample | mcp/server.ts:245-250 | `{tag:"x", text:"Y"}` gives `{replace:"x", by:{text:"Y"}}`; adding `style:{bold:true}` carries that style unchanged |
| SlidePlan.TextCall | mcp/server.ts:242-259 | one text group gives one `modifyElement(element, replaceText(mapped, {{ }}))`, or the mapper's exception |
| SlidePlan.ImageCall | mcp/server.ts:265-268 | one image entry gives one `modifyElement(element, [setRelationTarget(mediaFile)])`; a nullish entry throws on reading `element` |
| SlidePlan.Callback | mcp/server.ts:239-271 | the callback is a no-op when neither list is an array (that its text calls come first is `CallbackTextCallsFirst`) |
| SlidePlan.CallbackTextCallsFirst | mcp/server.ts:241-270 | call i of the callback is a text replacement iff i falls within the text loop's calls |
| SlidePlan.PresentArrayIsArray | mcp/server.ts:241 | the truthiness half of `x && Array.isArray(x)` never decides anything |
| SlidePlan.TextCallsVisitItems | mcp/server.ts:241-243 | the text loop visits the items of `textReplacements`, and none when it is absent or not an array |
| SlidePlan.ImageCallsVisitItems | mcp/server.ts:264-266 | the image loop visits the items of `imageReplacements`, and none when it is absent or not an array |
| SlidePlan.CallbackPlan | mcp/server.ts:241-270 | for every slide whose entries are well formed, with either list present or absent, the callback makes one `modifyElement(element, replaceText(mapped, {{ }}))` per text group in order, then one `modifyElement(element, [setRelationTarget(mediaFile)])` per image entry in order, and nothing else |
| SlidePlan.TextCallsPrecedeImageCalls | mcp/server.ts:241-270 | no image call ever precedes a text call |
| SlidePlan.NoTextCallsWithoutArray | mcp/server.ts:241 | a slide whose `textReplacements` is not an array gets no text call |
| Slideshow.Validate | mcp/server.ts:193-206 | the verdict is "missing parameters" iff a required property is falsy, then "template directory absent" iff it does not exist, else accepted |
| Slideshow.Config | mcp/server.ts:213-219 | the engine gets `templateDir` and `outputDir` unchanged and verbosity 1; its media directory is truthy iff `mediaDir` or `templateDir` is, and is `mediaDir` when that is truthy; it removes existing slides unless `removeExistingSlides` is the literal `false` |
| Slideshow.LoadTemplate | mcp/server.ts:226-228 | one template entry gives `load(filename, label)`; a nullish entry throws on reading `filename` |
| Slideshow.AddSlideFor | mcp/server.ts:238-239 | one slide entry gives `addSlide(template, slideNumber, callback)`; a nullish entry throws on reading `template` |
| Slideshow.TemplateLoads | mcp/server.ts:225-229 | the template loop runs only over an array, makes one `load(filename, label)` per entry in order, loading every entry when nothing throws, and throws only on reading `filename` of the first nullish entry, the entry it stops at |
| Slideshow.MediaLoad | mcp/server.ts:232-234 | `loadMedia` is called once, with the whole list, iff `mediaFiles` is an array, and never throws in the handler |
| Slideshow.SlideAdds | mcp/server.ts:238-239 | iterating `slides` throws "args.slides is not iterable" unless it is an array or a string; the loop makes only `addSlide` calls, and for an array or a string it throws only on reading `template` of a nullish entry |
| Slideshow.Planned | mcp/server.ts:208-275 | the planned run starts with the setup, throws only the handler's own TypeErrors, and when it does not throw it ends with the write |
| Slideshow.Caught | mcp/server.ts:283-287 | the `catch` clause gives a failure with no output path whose message is the error prefix followed by the error's text (`error.message` for an `Error`, `String(error)` otherwise), or rejects exactly when `String(error)` throws on a non-`Error` thrown value |
| Slideshow.Generate | mcp/server.ts:192-282 | `outputPath` is present iff success, and is then the joined path; the missing-parameters failure has no effect; a missing template directory gives its own message when its name converts, and the error prefix when it does not; accepted runs follow a prefix of the planned trace; success needs no throw and a `path.join` that returns; when the handler's own TypeError or a throwing `path.join` comes before any foreign throw, every planned effect has happened and the reply is the `catch` clause applied to that error; the promise rejects only for a non-convertible non-`Error` throw |
| Slideshow.GenerateSlideshow | mcp/server.ts:190-193 | an absent `arguments` object makes the first property read throw inside the `try`: no effect, and a failure reporting that TypeError; otherwise the handler runs on the arguments' properties |
| SlideshowProperties.TemplateLoadsAsExpected | mcp/server.ts:225-229 | the template loop succeeds iff no entry is nullish, and then makes exactly one `load` per entry in order |
| SlideshowProperties.SlideAddsAsExpected | mcp/server.ts:238-272 | the slide loop succeeds iff `slides` is iterable with no nullish entry, and then makes exactly one `addSlide` per entry in order |
| SlideshowProperties.PlannedSplit | mcp/server.ts:208-222 | the planned trace is the setup (mkdir when missing, engine creation, root load) followed by everything after it, and only the later part can throw |
| SlideshowProperties.AfterSetupParts | mcp/server.ts:224-275 | after the setup, the handler throws only through the template or slide loop; otherwise its effects are template loads, media load, slide appends, write, in that order |
| SlideshowProperties.PlannedFaultFreeIffWellShaped | mcp/server.ts:224-272 | outside the slide callbacks, the handler throws on its own iff a template entry or slide entry is nullish or `slides` is not iterable |
| SlideshowProperties.PlannedIsExpectedTrace | mcp/server.ts:212-275 | for a well-shaped request the planned trace equals an independent, element-by-element description of it |
| SlideshowProperties.SuccessTrace | mcp/server.ts:208-282 | an accepted, well-shaped request whose slide callbacks do not throw, on which no foreign call throws and `path.join` returns, performs exactly the expected trace and succeeds with the joined output path in both the message and `outputPath` |
| SlideshowProperties.EngineFailureStopsTrace | mcp/server.ts:283-287 | a throw at call k ends the trace at call k, and the `catch` clause reports that error |
| SlideshowProperties.OwnFaultReported | mcp/server.ts:224-287 | a TypeError from the handler's own reads or loop, with no earlier foreign throw, leaves every planned effect done and resolves to a failure whose message is the error prefix followed by the TypeError's text; it never rejects |
| SlideshowProperties.JoinFailureReported | mcp/server.ts:276-287 | a `path.join` that throws after every planned effect succeeded gives a failure whose message is the error prefix followed by that error's message |
| SlideshowProperties.TemplateLoadsOnlyLoad | mcp/server.ts:225-229 | the template loop makes nothing but `load` calls |
| SlideshowProperties.SlideAddsOnlyAddSlide | mcp/server.ts:238-272 | the slide loop makes nothing but `addSlide` calls |
| SlideshowProperties.AfterSetupOnlyLoopEffects | mcp/server.ts:224-275 | after the setup, only loads, the media load, slide appends and the write happen |
| SlideshowProperties.AfterSetupMakesNoDirectory | mcp/server.ts:208-275 | no directory is created after the engine exists |
| SlideshowProperties.SetupMakesDirectoryOnlyFirst | mcp/server.ts:208-222 | within the setup, a directory is created only as the first effect, and only when the output directory is missing |
| SlideshowProperties.PlannedMakesDirectoryOnlyFirst | mcp/server.ts:208-213 | directory creation can only be the first planned effect, and it is there iff the output directory is missing |
| SlideshowProperties.OutputDirectoryCreatedOnlyWhenMissing | mcp/server.ts:193-210 | the output directory is created iff both checks passed and it was missing, and then before any engine call |
| SlideshowProperties.ConfigIsIdempotent | mcp/server.ts:216-217 | the defaults are idempotent: feeding the engine options back in as `mediaDir` and `removeExistingSlides` yields the same options |
| SlideshowProperties.EngineConfigDefaults | mcp/server.ts:213-219 | `mediaDir` falls back to `templateDir` and is truthy once accepted; `removeExistingSlides` is false only for the literal `false` |
| SlideshowProperties.FailureMessageIdentifiesStage | mcp/server.ts:192-206 | a failure message is the missing-parameters text iff a required property is falsy; it has the template-directory prefix iff the directory is absent and its name converts; otherwise (accepted, absent `arguments`, unconvertible name) it has the engine-error prefix |
| SlideshowProperties.AbsentArgumentsFail | mcp/server.ts:193 | with no `arguments`, nothing happens and the reply is "Error generating slideshow: Cannot read properties of undefined (reading 'templateDir')" |
| SlideshowProperties.UnconvertibleTemplateDirFails | mcp/server.ts:204 | a missing template directory named by an object with its own `toString` key gives "Error generating slideshow: Cannot convert object to primitive value" |
| SlideshowProperties.UnconvertibleThrownValueRejects | mcp/server.ts:286 | a foreign throw of a non-`Error` value that `String()` cannot convert makes the handler reject, after the effects up to that call |
| SlideshowProperties.EmptySlidesStillWrite | mcp/server.ts:193 | an empty `slides` array passes validation: with no template or media list, the output directory present and nothing throwing, the run creates the engine, loads the root template, writes and succeeds |
| SlideshowProperties.StringSlidesAddOneSlidePerCharacter | mcp/server.ts:238-239 | a string in `slides` appends one slide per character, with undefined template and slide number |
| SlideshowProperties.PlannedWhenSlideLoopThrowsFirst | mcp/server.ts:225-238 | when the slide loop throws before its first append, the run ends after the media load with that exception, with no append and no write |
| SlideshowProperties.SetupBeforeSlides | mcp/server.ts:208-222 | the setup makes no slide append and no write |
| SlideshowProperties.PlannedWhenTemplateLoopThrows | mcp/server.ts:225-229 | when the template loop throws, the run ends with that exception, with no append and no write |
| SlideshowProperties.NonIterableSlidesNeverWrite | mcp/server.ts:238 | a truthy non-iterable `slides` never succeeds and never appends or writes; when nothing threw before the loop, the message is "Error generating slideshow: args.slides is not iterable" |
| SlideshowProperties.ExampleTextCall | mcp/server.ts:242-259 | the example's text group of two plain tags gives one text-replace call with two style-less instructions in order |
| SlideshowProperties.ExampleCallback | mcp/server.ts:239-271 | the example slide's callback makes exactly that one call |
| SlideshowProperties.ExampleWellShaped | mcp/server.ts:225-239 | the example request makes one `load("TextReplace.pptx", "text")` and one `addSlide("text", 1, callback)` |
| SlideshowProperties.ExpectedTraceWithoutMedia | mcp/server.ts:212-275 | with the output directory present and no media list, the expected trace is create, root load, template loads, slide appends, write |
| SlideshowProperties.ExampleAccepted | mcp/server.ts:193-206 | the example request has every required property and passes validation when its template directory exists |
| SlideshowProperties.ExampleExpectedTrace | mcp/server.ts:212-275 | the example's expected trace is create, root load, template load, slide append, write |
| SlideshowProperties.EndToEndExample | mcp/server.ts:221-282 | with the template and output directories present, one auxiliary template and one slide with one text group yield five effects ending in the write, and, when `path.join` returns, success with the joined path |

## Left out

- The server bootstrap in `main` is not modelled: construction, tool listing, the unknown-tool branch, stdio transport, logging and `process.exit`. It carries no domain logic.
- The tool's JSON schema constant is not modelled. It only guided which request properties the model represents, and the handler never enforces it.
- The composition engine is not modelled: construction, loading, `replaceText`, `setRelationTarget`, `write` and its summary counts. Its calls appear only as trace values. So nothing is stated about the summary `write` returns or about a repeated run on the same output file.
- When the engine runs a slide callback, and whether a TypeError inside it surfaces, is the engine's business. The callback's own exception is kept in the trace value. Any throw the engine raises is covered only by `Host.failure`.
- SlideshowProperties.PlannedFaultFreeIffWellShaped: covers only the handler's own code outside the slide callbacks. A TypeError inside a callback (a nullish text group, a `replacements` that is not an array) counts only through `Host.failure`, at the engine call that runs the callback. So `SuccessTrace` requires `CallbacksHold` as well as `WellShaped`.
- `fs.existsSync` and `path.join` are the opaque functions `Host.pathExists` and `Host.join`; `Host.join` may answer with the message of the TypeError it throws. A `mkdirSync` failure, including its TypeError for a path that is not a string, is a throw at trace index 0, through `Host.failure`.
- `async`/`await` is modelled as a straight-line sequence. The handler awaits one call at a time.
- The loops are modelled as native `for...of`, which the module's use of `import.meta` suggests (an ES module, most likely compiled for an ES2015-or-later target). A down-levelled index loop would treat strings and array-likes differently.
- JSON numbers are modelled as integers. Non-integer numbers and their string forms are left out. `-0` and `0` coincide, which keeps truthiness exact.
- JsValues.ToJsString: prints every digit of an integer, while JavaScript prints a number of 10^21 or more in exponent form with the shortest digits that identify the double. That form depends on double precision, which the integer model leaves out.
- Slideshow.Generate: the template-directory message for a number of 10^21 or more therefore shows all its digits, where the source shows the exponent form.
- The rejection of the handler's promise (`Reply.Rejected`) is where the model stops. What the MCP SDK answers to the client then is not modelled.
- Built-in properties of arrays and strings, such as `length`, are not modelled. The handler reads none of them other than `map`, which is modelled in `MapReplacements`.
- The runtime's TypeError messages follow the V8 engine's wording ("Cannot read properties of undefined (reading 'x')", "… is not iterable", "… is not a function"). Another runtime may word them differently.
- `__tests__/mcp-server.test.ts` is not modelled. It only spawns the server process and checks files.

=== FILE: js_values.dfy ===
/**
 * The untyped JSON values a tool request carries, together with the small part
 * of JavaScript's semantics the request handler relies on: truthiness,
 * property reads (which throw on null and undefined), `for...of` iteration,
 * conversion to a string in template literals, and the exceptions the runtime
 * raises while doing these things.
 */
module JsValues {
  import opened Wrappers

  /** A value parsed from the JSON tool arguments. `Undefined` stands for an
      absent property. Numbers are abstracted to integers (so `-0` is `0`). */
  datatype Json =
    | Undefined
    | Null
    | Bool(b: bool)
    | Num(n: int)
    | Str(s: string)
    | Arr(items: seq<Json>)
    | Obj(fields: map<string, Json>)

  /** JavaScript truthiness: `undefined`, `null`, `false`, `0` and `""` are
      falsy; every array and object is truthy, even an empty one. */
  predicate IsTruthy(v: Json) {
    match v
    case Undefined => false
    case Null => false
    case Bool(b) => b
    case Num(n) => n != 0
    case Str(s) => s != ""
    case Arr(_) => true
    case Obj(_) => true
  }

  /** The values on which a property read throws a TypeError. */
  predicate IsNullish(v: Json) {
    v.Undefined? || v.Null?
  }

  /** The value of property `key` of a value that is not nullish. Arrays,
      strings, numbers and booleans have none of the properties the request
      handler reads, so those reads give `undefined`. */
  function Field(v: Json, key: string): Json {
    if v.Obj? && key in v.fields then v.fields[key] else Undefined
  }

  /** What JavaScript throws. The first four are the TypeErrors the runtime
      raises inside the request handler itself; `Raised` is anything thrown
      by the filesystem, `path.join` or the composition engine. */
  datatype Thrown =
    | ReadOfNullish(base: Json, key: string)
    | NotIterable(expression: string)
    | NotAFunction(expression: string)
    | NoPrimitive
    | Raised(error: ExternalError)

  /** A value thrown by foreign code: an `Error` instance carries a message,
      anything else is shown through `String(value)`. */
  datatype ExternalError = ErrorInstance(message: string) | OtherValue(value: Json)

  /** The falsy values are exactly `undefined`, `null`, `false`, `0` and
      `""`. */
  lemma FalsyValues(v: Json)
    ensures !IsTruthy(v) <==> v in {Undefined, Null, Bool(false), Num(0), Str("")}
  {
  }

  /** The items a loop guarded by `Array.isArray(v)` visits: an array's
      items, and none for anything else. */
  function Items(v: Json): seq<Json> {
    if v.Arr? then v.items else []
  }

  /** The property read `v.key`. */
  function Prop(v: Json, key: string): (r: Result<Json, Thrown>)
    ensures r.Failure? <==> IsNullish(v)
    ensures r.Failure? ==> r.error == ReadOfNullish(v, key)
    ensures r.Success? ==> r.value == Field(v, key)
    ensures v.Obj? && key !in v.fields ==> r == Success(Undefined)
  {
    if IsNullish(v) then Failure(ReadOfNullish(v, key)) else Success(Field(v, key))
  }

  /** `for (const x of v)`: arrays yield their items, strings yield one
      single-character string per character, everything else throws. */
  function Iterate(v: Json, expression: string): (r: Result<seq<Json>, Thrown>)
    ensures r.Success? <==> v.Arr? || v.Str?
    ensures v.Arr? ==> r == Success(v.items)
    ensures v.Str? ==> r.Success? && |r.value| == |v.s|
                       && forall i :: 0 <= i < |v.s| ==> r.value[i] == Str([v.s[i]])
    ensures r.Failure? ==> r.error == NotIterable(expression)
  {
    match v
    case Arr(items) => Success(items)
    case Str(s) => Success(seq(|s|, i requires 0 <= i < |s| => Str([s[i]])))
    case _ => Failure(NotIterable(expression))
  }

  /** Whether `String(v)` returns. A JSON object converts through the
      inherited `Object.prototype.toString`, unless it has an own `toString`
      property: that one is never callable, the inherited `valueOf` returns
      the object itself, and the conversion throws. An array converts each
      item that is not null or undefined. */
  predicate Convertible(v: Json) {
    match v
    case Obj(fields) => "toString" !in fields
    case Arr(items) => forall i :: 0 <= i < |items| ==> IsNullish(items[i]) || Convertible(items[i])
    case _ => true
  }

  /** `String(v)`, as a template literal `${v}` applies it. */
  function ToJsString(v: Json): (r: Result<string, Thrown>)
    ensures r.Success? <==> Convertible(v)
    ensures r.Failure? ==> r.error == NoPrimitive
    ensures v.Str? ==> r == Success(v.s)
    ensures v.Obj? && Convertible(v) ==> r == Success("[object Object]")
    decreases v, 1
  {
    match v
    case Undefined => Success("undefined")
    case Null => Success("null")
    case Bool(b) => Success(if b then "true" else "false")
    case Num(n) => Success(IntToDecimal(n))
    case Str(s) => Success(s)
    case Arr(items) => JoinItems(items, v)
    case Obj(fields) => if "toString" in fields then Failure(NoPrimitive) else Success("[object Object]")
  }

  /** `Array.prototype.join(",")` on the items of array `whole`: null and
      undefined items become empty strings, and the first item that cannot
      be converted makes the whole conversion throw. */
  function JoinItems(items: seq<Json>, ghost whole: Json): (r: Result<string, Thrown>)
    requires forall i :: 0 <= i < |items| ==> items[i] < whole
    ensures r.Success? <==> forall i :: 0 <= i < |items| ==> IsNullish(items[i]) || Convertible(items[i])
    ensures r.Failure? ==> r.error == NoPrimitive
    decreases whole, 0, |items|
  {
    if |items| == 0 then Success("")
    else
      var head := if IsNullish(items[0]) then Success("") else ToJsString(items[0]);
      if head.Failure? then Failure(head.error)
      else if |items| == 1 then head
      else
        var rest := JoinItems(items[1..], whole);
        assert forall i :: 1 <= i < |items| ==> items[1..][i - 1] == items[i];
        if rest.Failure? then Failure(rest.error) else Success(head.value + "," + rest.value)
  }

  function IntToDecimal(n: int): string
    decreases if n < 0 then 1 - n else n
  {
    if n < 0 then "-" + IntToDecimal(-n)
    else if n < 10 then [Digit(n)]
    else IntToDecimal(n / 10) + [Digit(n % 10)]
  }

  function Digit(d: int): char
    requires 0 <= d < 10
  {
    "0123456789"[d]
  }

  /** The message of a property read on `undefined`. */
  lemma ReadOfUndefinedMessage(key: string)
    ensures Describe(ReadOfNullish(Undefined, key))
            == Success("Cannot read properties of undefined (reading '" + key + "')")
  {
    assert "Cannot read properties of " + "undefined" + " (reading '" == "Cannot read properties of undefined (reading '";
  }

  /** The message of a `for...of` over a value that is not iterable. */
  lemma NotIterableMessage(expression: string)
    ensures Describe(NotIterable(expression)) == Success(expression + " is not iterable")
  {
  }

  /** The text a `catch` clause shows: `error.message` for an `Error`
      instance, `String(error)` otherwise — which itself throws for a value
      that cannot be converted. The runtime's own TypeErrors are `Error`
      instances; their wording is that of the V8 engine. */
  function Describe(t: Thrown): (r: Result<string, Thrown>)
    ensures r.Failure? <==> t.Raised? && t.error.OtherValue? && !Convertible(t.error.value)
    ensures r.Failure? ==> r.error == NoPrimitive
    ensures t.Raised? && t.error.ErrorInstance? ==> r == Success(t.error.message)
  {
    match t
    case ReadOfNullish(base, key) =>
      Success("Cannot read properties of " + (if base.Null? then "null" else "undefined")
              + " (reading '" + key + "')")
    case NotIterable(e) => Success(e + " is not iterable")
    case NotAFunction(e) => Success(e + " is not a function")
    case NoPrimitive => Success("Cannot convert object to primitive value")
    case Raised(ErrorInstance(m)) => Success(m)
    case Raised(OtherValue(v)) => ToJsString(v)
  }
}

=== FILE: replacement_mapper.dfy ===
/**
 * The replacement mapper: a list of declarative `{tag, text, style?}`
 * entries becomes the list of `{replace, by: {text, style?}}` instructions the
 * composition engine's text-replace modifier consumes, delimited by the fixed
 * tags `{{` and `}}`.
 */
module ReplacementMapper {
  import opened Wrappers
  import opened JsValues
  import opened Runs

  /** `{text, style?}`: `style` is `None` when the key is absent. */
  datatype ReplacementBy = ReplacementBy(text: Json, style: Option<Json>)

  /** `{replace, by}`; the `by` key is the field `byValue`. */
  datatype Replacement = Replacement(replace: Json, byValue: ReplacementBy)

  /** The `{openingTag, closingTag}` pair handed to the text-replace modifier. */
  datatype Delimiters = Delimiters(openingTag: string, closingTag: string)

  /** The system-wide delimiters; no request can change them. */
  const TagDelimiters: Delimiters := Delimiters("{{", "}}")

  /** The mapping callback applied to one entry `r`: reads `r.tag`, then
      `r.style`, then `r.text`; the first read throws if `r` is nullish. A
      `style` key appears in the output only when the input's style is
      truthy, and then it is the input's own value. */
  function MapEntry(r: Json): (m: Result<Replacement, Thrown>)
    ensures m.Failure? <==> IsNullish(r)
    ensures m.Failure? ==> m.error == ReadOfNullish(r, "tag")
    ensures m.Success? ==> m.value.replace == Field(r, "tag") && m.value.byValue.text == Field(r, "text")
    ensures m.Success? ==> (m.value.byValue.style.Some? <==> IsTruthy(Field(r, "style")))
    ensures m.Success? && m.value.byValue.style.Some? ==> m.value.byValue.style.value == Field(r, "style")
  {
    if IsNullish(r) then Failure(ReadOfNullish(r, "tag"))
    else
      var style := Field(r, "style");
      Success(Replacement(Field(r, "tag"),
                          ReplacementBy(Field(r, "text"), if IsTruthy(style) then Some(style) else None)))
  }

  /** `replacements.map(...)`. Reading `.map` throws on a nullish value, and
      calling it throws on anything that is not an array; otherwise every
      entry is mapped, in order, with no entry dropped or merged, and the
      first nullish entry aborts the whole mapping. */
  function MapReplacements(replacements: Json): (m: Result<seq<Replacement>, Thrown>)
    ensures IsNullish(replacements) ==> m == Failure(ReadOfNullish(replacements, "map"))
    ensures !IsNullish(replacements) && !replacements.Arr? ==>
              m == Failure(NotAFunction("textReplacement.replacements.map"))
    ensures replacements.Arr? ==>
              var rs := replacements.items;
              && (m.Success? <==> forall i :: 0 <= i < |rs| ==> !IsNullish(rs[i]))
              && (m.Success? ==> |m.value| == |rs|
                                 && forall i :: 0 <= i < |rs| ==> MapEntry(rs[i]) == Success(m.value[i]))
              && (m.Failure? ==> exists k :: 0 <= k < |rs| && IsNullish(rs[k])
                                             && m.error == ReadOfNullish(rs[k], "tag")
                                             && forall i :: 0 <= i < k ==> !IsNullish(rs[i]))
  {
    if IsNullish(replacements) then Failure(ReadOfNullish(replacements, "map"))
    else if !replacements.Arr? then Failure(NotAFunction("textReplacement.replacements.map"))
    else
      var run := Traverse(replacements.items, MapEntry);
      TraverseFaultIsFirstFailure(replacements.items, MapEntry);
      if run.fault.Some? then Failure(run.fault.value) else Success(run.done)
  }

  /** Entry-wise reading of the mapper's output: order and length are kept,
      every tag and text is copied, and a style is present exactly when the
      input's style is truthy — never synthesised. */
  lemma MapperPreservesEntries(rs: seq<Json>)
    requires forall i :: 0 <= i < |rs| ==> !IsNullish(rs[i])
    ensures MapReplacements(Arr(rs)).Success?
    ensures var out := MapReplacements(Arr(rs)).value;
            && |out| == |rs|
            && (forall i :: 0 <= i < |rs| ==>
                  && out[i].replace == Field(rs[i], "tag")
                  && out[i].byValue.text == Field(rs[i], "text")
                  && (out[i].byValue.style.Some? <==> IsTruthy(Field(rs[i], "style")))
                  && (out[i].byValue.style.Some? ==> out[i].byValue.style.value == Field(rs[i], "style")))
  {
    var out := MapReplacements(Arr(rs)).value;
    forall i | 0 <= i < |rs|
      ensures out[i].replace == Field(rs[i], "tag") && out[i].byValue.text == Field(rs[i], "text")
      ensures out[i].byValue.style.Some? <==> IsTruthy(Field(rs[i], "style"))
      ensures out[i].byValue.style.Some? ==> out[i].byValue.style.value == Field(rs[i], "style")
    {
      assert MapEntry(rs[i]) == Success(out[i]);
    }
  }

  /** Mapping a concatenation maps each part: entries are never reordered,
      and equal entries (duplicate tags included) each keep their place. */
  lemma MapperDistributesOverConcat(xs: seq<Json>, ys: seq<Json>)
    requires MapReplacements(Arr(xs)).Success? && MapReplacements(Arr(ys)).Success?
    ensures MapReplacements(Arr(xs + ys))
            == Success(MapReplacements(Arr(xs)).value + MapReplacements(Arr(ys)).value)
  {
    TraverseAppend(xs, ys, MapEntry);
  }

  /** The untyped entry `{tag, text}`, without a style. */
  function TextEntry(tag: string, text: string): Json {
    Obj(map["tag" := Str(tag), "text" := Str(text)])
  }

  /** An entry without a style maps to an instruction without a `style`
      key. */
  lemma PlainEntryMapsWithoutStyle(tag: string, text: string)
    ensures MapEntry(TextEntry(tag, text)) == Success(Replacement(Str(tag), ReplacementBy(Str(text), None)))
  {
    assert Field(TextEntry(tag, text), "style") == Undefined;
  }

  /** Three untyped entries without a style become three instructions
      without a `style` key, in the same order. */
  lemma ThreePlainEntriesExample(t1: string, x1: string, t2: string, x2: string, t3: string, x3: string)
    ensures MapReplacements(Arr([TextEntry(t1, x1), TextEntry(t2, x2), TextEntry(t3, x3)]))
            == Success([Replacement(Str(t1), ReplacementBy(Str(x1), None)),
                        Replacement(Str(t2), ReplacementBy(Str(x2), None)),
                        Replacement(Str(t3), ReplacementBy(Str(x3), None))])
  {
    var rs := [TextEntry(t1, x1), TextEntry(t2, x2), TextEntry(t3, x3)];
    PlainEntryMapsWithoutStyle(t1, x1);
    PlainEntryMapsWithoutStyle(t2, x2);
    PlainEntryMapsWithoutStyle(t3, x3);
    TraverseTotal(rs, MapEntry);
    var out := Traverse(rs, MapEntry).done;
    assert out[0] == MapEntry(rs[0]).value;
    assert out[1] == MapEntry(rs[1]).value;
    assert out[2] == MapEntry(rs[2]).value;
    assert out == [out[0], out[1], out[2]];
  }

  /** `{tag: "x", text: "Y"}` maps to `{replace: "x", by: {text: "Y"}}`, and
      adding `style: {bold: true}` carries that style through unchanged. */
  lemma StyleExample()
    ensures MapEntry(TextEntry("x", "Y")) == Success(Replacement(Str("x"), ReplacementBy(Str("Y"), None)))
    ensures var bold := Obj(map["bold" := Bool(true)]);
            MapEntry(Obj(map["tag" := Str("x"), "text" := Str("Y"), "style" := bold]))
            == Success(Replacement(Str("x"), ReplacementBy(Str("Y"), Some(bold))))
  {
  }
}

=== FILE: runs.dfy ===
/**
 * A `Run` is what a straight-line piece of JavaScript produces before it
 * either finishes or throws: the calls it made, in order, and the exception
 * that stopped it, if any. `Traverse` is a `for...of` loop whose body makes
 * one call per element or throws.
 */
module Runs {
  import opened Wrappers
  import opened JsValues

  datatype Run<T> = Run(done: seq<T>, fault: Option<Thrown>)

  function Empty<T>(): Run<T> {
    Run([], None)
  }

  /** Sequential composition: the second part runs only if the first
      finished without throwing. */
  function Then<T>(a: Run<T>, b: Run<T>): (r: Run<T>)
    ensures a.fault.Some? ==> r == a
    ensures a.fault.None? ==> r.done == a.done + b.done && r.fault == b.fault
  {
    if a.fault.Some? then a else Run(a.done + b.done, b.fault)
  }

  /** Every call the run made satisfies `p`. */
  ghost predicate AllDone<T>(r: Run<T>, p: T -> bool) {
    forall i :: 0 <= i < |r.done| ==> p(r.done[i])
  }

  lemma ThenAllDone<T>(a: Run<T>, b: Run<T>, p: T -> bool)
    requires AllDone(a, p) && AllDone(b, p)
    ensures AllDone(Then(a, b), p)
  {
    if a.fault.None? {
      var r := Then(a, b);
      forall i | 0 <= i < |r.done| ensures p(r.done[i]) {
        if i >= |a.done| {
          assert r.done[i] == b.done[i - |a.done|];
        }
      }
    }
  }

  /** One step per element of `xs`, in order, stopping at the first element
      whose step throws. */
  function Traverse<A, B>(xs: seq<A>, step: A -> Result<B, Thrown>): (r: Run<B>)
    ensures |r.done| <= |xs|
    ensures forall i :: 0 <= i < |r.done| ==> step(xs[i]) == Success(r.done[i])
    ensures r.fault.None? <==> |r.done| == |xs|
    ensures r.fault.Some? ==> step(xs[|r.done|]) == Failure(r.fault.value)
    decreases |xs|
  {
    if |xs| == 0 then Run([], None)
    else
      match step(xs[0])
      case Failure(e) => Run([], Some(e))
      case Success(y) =>
        var rest := Traverse(xs[1..], step);
        Run([y] + rest.done, rest.fault)
  }

  /** A traversal throws exactly when some element's step throws, and then it
      throws the exception of the first such element. */
  lemma TraverseFaultIsFirstFailure<A, B>(xs: seq<A>, step: A -> Result<B, Thrown>)
    ensures Traverse(xs, step).fault.None? <==> forall i :: 0 <= i < |xs| ==> step(xs[i]).Success?
    ensures Traverse(xs, step).fault.Some? ==>
              var k := |Traverse(xs, step).done|;
              && step(xs[k]).Failure?
              && (forall i :: 0 <= i < k ==> step(xs[i]).Success?)
  {
    var r := Traverse(xs, step);
    if r.fault.None? {
      forall i | 0 <= i < |xs| ensures step(xs[i]).Success? {
        assert step(xs[i]) == Success(r.done[i]);
      }
    }
  }

  /** Without a fault, a traversal is the element-wise image of its input. */
  lemma TraverseTotal<A, B>(xs: seq<A>, step: A -> Result<B, Thrown>)
    requires forall i :: 0 <= i < |xs| ==> step(xs[i]).Success?
    ensures Traverse(xs, step) == Run(seq(|xs|, i requires 0 <= i < |xs| => step(xs[i]).value), None)
  {
    TraverseFaultIsFirstFailure(xs, step);
  }

  /** Two loops in a row in which nothing throws: one call per element of
      the first, then one per element of the second. */
  lemma TraverseThenTotal<A, B>(xs: seq<A>, ys: seq<A>, f: A -> Result<B, Thrown>, g: A -> Result<B, Thrown>)
    requires forall i :: 0 <= i < |xs| ==> f(xs[i]).Success?
    requires forall j :: 0 <= j < |ys| ==> g(ys[j]).Success?
    ensures var r := Then(Traverse(xs, f), Traverse(ys, g));
            && r.fault.None?
            && |r.done| == |xs| + |ys|
            && (forall i :: 0 <= i < |xs| ==> r.done[i] == f(xs[i]).value)
            && (forall j :: 0 <= j < |ys| ==> r.done[|xs| + j] == g(ys[j]).value)
  {
    TraverseTotal(xs, f);
    TraverseTotal(ys, g);
  }

  /** Traversing a concatenation traverses the first part, then (unless it
      threw) the second: order is preserved and nothing is merged. */
  lemma {:induction false} TraverseAppend<A, B>(xs: seq<A>, ys: seq<A>, step: A -> Result<B, Thrown>)
    ensures Traverse(xs + ys, step) == Then(Traverse(xs, step), Traverse(ys, step))
    decreases |xs|
  {
    if |xs| == 0 {
      assert xs + ys == ys;
    } else {
      assert (xs + ys)[0] == xs[0];
      assert (xs + ys)[1..] == xs[1..] + ys;
      match step(xs[0])
      case Failure(e) =>
      case Success(y) =>
        TraverseAppend(xs[1..], ys, step);
        var a := Traverse(xs[1..], step);
        if a.fault.None? {
          assert [y] + (a.done + Traverse(ys, step).done) == ([y] + a.done) + Traverse(ys, step).done;
        }
    }
  }
}

=== FILE: slide_plan.dfy ===
/**
 * The per-slide callback, as a value: what it asks of the slide handle when
 * the composition engine runs it. Every text-replacement group becomes one
 * `modifyElement` call with a text-replace modifier, in declared order, and
 * then every image replacement becomes one `modifyElement` call with a
 * relation-target modifier, in declared order.
 */
module SlidePlan {
  import opened Wrappers
  import opened JsValues
  import opened Runs
  import opened ReplacementMapper

  /** The modifier handed to `modifyElement`. `ReplaceText` is the single
      modifier `modify.replaceText(replacements, delimiters)` returns;
      `SetRelationTarget` is `modify.setRelationTarget(mediaFile)`, passed
      as the only item of an array. */
  datatype Modifier =
    | ReplaceText(replacements: seq<Replacement>, delimiters: Delimiters)
    | SetRelationTarget(mediaFile: Json)

  /** `slide.modifyElement(element, modifier)`. */
  datatype SlideCall = ModifyElement(element: Json, modifier: Modifier)

  /** The guard `x && Array.isArray(x)`. */
  predicate IsPresentArray(v: Json) {
    IsTruthy(v) && v.Arr?
  }

  /** Body of the text loop for one group: map `group.replacements`, then
      modify `group.element` with the mapped list and the fixed delimiters. */
  function TextCall(group: Json): (c: Result<SlideCall, Thrown>)
    ensures IsNullish(group) ==> c == Failure(ReadOfNullish(group, "replacements"))
    ensures !IsNullish(group) ==>
              match MapReplacements(Field(group, "replacements"))
              case Failure(e) => c == Failure(e)
              case Success(m) => c == Success(ModifyElement(Field(group, "element"), ReplaceText(m, TagDelimiters)))
  {
    match Prop(group, "replacements")
    case Failure(e) => Failure(e)
    case Success(replacements) =>
      match MapReplacements(replacements)
      case Failure(e) => Failure(e)
      case Success(mapped) => Success(ModifyElement(Field(group, "element"), ReplaceText(mapped, TagDelimiters)))
  }

  /** Body of the image loop for one entry: modify `entry.element` so that it
      points at `entry.mediaFile`. */
  function ImageCall(entry: Json): (c: Result<SlideCall, Thrown>)
    ensures c.Failure? <==> IsNullish(entry)
    ensures c.Failure? ==> c.error == ReadOfNullish(entry, "element")
    ensures c.Success? ==> c.value == ModifyElement(Field(entry, "element"), SetRelationTarget(Field(entry, "mediaFile")))
  {
    match Prop(entry, "element")
    case Failure(e) => Failure(e)
    case Success(element) => Success(ModifyElement(element, SetRelationTarget(Field(entry, "mediaFile"))))
  }

  function TextCalls(slideConfig: Json): Run<SlideCall> {
    var groups := Field(slideConfig, "textReplacements");
    if IsPresentArray(groups) then Traverse(groups.items, TextCall) else Empty()
  }

  function ImageCalls(slideConfig: Json): Run<SlideCall> {
    var images := Field(slideConfig, "imageReplacements");
    if IsPresentArray(images) then Traverse(images.items, ImageCall) else Empty()
  }

  /** The callback bound to `slideConfig`, run against a slide handle: the
      text calls, then — unless one of them threw — the image calls. */
  function Callback(slideConfig: Json): (r: Run<SlideCall>)
    ensures !Field(slideConfig, "textReplacements").Arr? && !Field(slideConfig, "imageReplacements").Arr?
            ==> r == Run([], None)
  {
    Then(TextCalls(slideConfig), ImageCalls(slideConfig))
  }

  /** The callback's text calls are exactly its first calls: call `i` is a
      text replacement iff `i` falls within the text loop's calls. */
  lemma CallbackTextCallsFirst(slideConfig: Json)
    ensures var r := Callback(slideConfig);
            forall i :: 0 <= i < |r.done| ==>
              (r.done[i].modifier.ReplaceText? <==> i < |TextCalls(slideConfig).done|)
  {
    var text, images := TextCalls(slideConfig), ImageCalls(slideConfig);
    var groups := Field(slideConfig, "textReplacements");
    var entries := Field(slideConfig, "imageReplacements");
    forall i | 0 <= i < |text.done| ensures text.done[i].modifier.ReplaceText? {
      assert TextCall(groups.items[i]) == Success(text.done[i]);
    }
    forall i | 0 <= i < |images.done| ensures images.done[i].modifier.SetRelationTarget? {
      assert ImageCall(entries.items[i]) == Success(images.done[i]);
    }
  }

  /** The truthiness half of `x && Array.isArray(x)` never matters: every
      array is truthy. */
  lemma PresentArrayIsArray(v: Json)
    ensures IsPresentArray(v) <==> v.Arr?
  {
  }

  /** The text loop visits the items of `textReplacements`: none unless it
      is an array. */
  lemma TextCallsVisitItems(slideConfig: Json)
    ensures TextCalls(slideConfig) == Traverse(Items(Field(slideConfig, "textReplacements")), TextCall)
  {
  }

  /** The image loop visits the items of `imageReplacements`: none unless it
      is an array. */
  lemma ImageCallsVisitItems(slideConfig: Json)
    ensures ImageCalls(slideConfig) == Traverse(Items(Field(slideConfig, "imageReplacements")), ImageCall)
  {
  }

  /** When every group and image entry is well formed, the callback makes
      exactly one call per text group, in declared order, followed by exactly
      one call per image replacement, in declared order, and nothing else. A
      list that is absent or not an array contributes no call. */
  lemma CallbackPlan(slideConfig: Json)
    requires forall i :: 0 <= i < |Items(Field(slideConfig, "textReplacements"))| ==>
               TextCall(Items(Field(slideConfig, "textReplacements"))[i]).Success?
    requires forall j :: 0 <= j < |Items(Field(slideConfig, "imageReplacements"))| ==>
               !IsNullish(Items(Field(slideConfig, "imageReplacements"))[j])
    ensures Callback(slideConfig).fault.None?
    ensures var groups := Items(Field(slideConfig, "textReplacements"));
            var images := Items(Field(slideConfig, "imageReplacements"));
            var calls := Callback(slideConfig).done;
            && |calls| == |groups| + |images|
            && (forall i :: 0 <= i < |groups| ==>
                  var m := MapReplacements(Field(groups[i], "replacements")).value;
                  calls[i] == ModifyElement(Field(groups[i], "element"), ReplaceText(m, TagDelimiters)))
            && (forall j :: 0 <= j < |images| ==>
                  calls[|groups| + j]
                  == ModifyElement(Field(images[j], "element"), SetRelationTarget(Field(images[j], "mediaFile"))))
  {
    var groups := Items(Field(slideConfig, "textReplacements"));
    var images := Items(Field(slideConfig, "imageReplacements"));
    TextCallsVisitItems(slideConfig);
    ImageCallsVisitItems(slideConfig);
    TraverseThenTotal(groups, images, TextCall, ImageCall);
  }

  /** No image call ever precedes a text call. */
  lemma TextCallsPrecedeImageCalls(slideConfig: Json, i: int, j: int)
    requires 0 <= i < j < |Callback(slideConfig).done|
    requires Callback(slideConfig).done[j].modifier.ReplaceText?
    ensures Callback(slideConfig).done[i].modifier.ReplaceText?
  {
    CallbackTextCallsFirst(slideConfig);
  }

  /** A slide whose `textReplacements` is absent or not an array gets no
      text call at all. */
  lemma NoTextCallsWithoutArray(slideConfig: Json)
    requires !Field(slideConfig, "textReplacements").Arr?
    ensures forall c :: c in Callback(slideConfig).done ==> c.modifier.SetRelationTarget?
  {
    CallbackTextCallsFirst(slideConfig);
  }
}

=== FILE: slideshow.dfy ===
/**
 * The `generate_slideshow` request handler: validate the untyped arguments,
 * create the output directory when it is missing, drive the composition
 * engine through a fixed sequence of calls, and turn whatever happens into a
 * `{success, message, outputPath?}` result. The filesystem, `path.join` and
 * the engine are not modelled as code: the handler's effects are recorded as
 * a trace, and a `Host` value supplies what the outside world answers.
 */
module Slideshow {
  import opened Wrappers
  import opened JsValues
  import opened Runs
  import opened SlidePlan

  /** The tool arguments; a property the caller did not send is `Undefined`.
      Properties the handler never reads are not represented. */
  datatype Request = Request(
    templateDir: Json,
    outputDir: Json,
    mediaDir: Json,
    rootTemplate: Json,
    templates: Json,
    mediaFiles: Json,
    slides: Json,
    outputFilename: Json,
    removeExistingSlides: Json)

  /** The options object the engine is constructed with. */
  datatype EngineConfig = EngineConfig(
    templateDir: Json,
    outputDir: Json,
    mediaDir: Json,
    removeExistingSlides: bool,
    verbosity: int)

  /** One call into foreign code, in the order the handler makes it. */
  datatype Effect =
    | MakeDirectory(path: Json)                    // fs.mkdirSync(path, {recursive: true})
    | CreateEngine(config: EngineConfig)           // new Automizer(config)
    | LoadRoot(filename: Json)                     // loadRoot(filename)
    | Load(filename: Json, templateLabel: Json)    // load(filename, label)
    | LoadMedia(files: seq<Json>)                  // loadMedia(files)
    | AddSlide(template: Json, slideNumber: Json, callback: Run<SlideCall>)  // addSlide(template, slideNumber, callback)
    | Write(filename: Json)                        // write(filename)

  /** The tool's answer. `outputPath` is `None` when the key is absent. */
  datatype GenerationResult = GenerationResult(success: bool, message: string, outputPath: Option<string>)

  /** A call into foreign code that throws: the effect at index `step` of
      the trace throws `error`. */
  datatype EngineFailure = EngineFailure(step: nat, error: ExternalError)

  /** What the outside world answers: whether a path exists, what
      `path.join` returns (or the message of the TypeError it throws for an
      argument that is not a string), and which call (if any) throws. */
  datatype Host = Host(pathExists: Json -> bool, join: (Json, Json) -> Result<string, string>,
                       failure: Option<EngineFailure>)

  /** How the handler's promise settles: with a result, or — when the
      `catch` clause itself throws — rejected with that exception. */
  datatype Reply = Resolved(result: GenerationResult) | Rejected(error: Thrown)

  /** The effects performed and how the handler settled. */
  datatype Outcome = Outcome(effects: seq<Effect>, reply: Reply)

  predicate Succeeded(o: Outcome) {
    o.reply.Resolved? && o.reply.result.success
  }

  const MissingParametersMessage: string :=
    "Missing required parameters: "
    + "templateDir, outputDir, rootTemplate, slides, and outputFilename are required"

  const TemplateDirPrefix: string := "Template directory does not exist: "

  const SuccessPrefix: string := "Slideshow generated successfully. Output: "

  const ErrorPrefix: string := "Error generating slideshow: "

  predicate StartsWith(prefix: string, s: string) {
    |prefix| <= |s| && s[..|prefix|] == prefix
  }

  /** The tool arguments as the handler reads them, once `args` itself is
      neither null nor undefined. */
  function RequestOf(args: Json): Request {
    Request(
      Field(args, "templateDir"),
      Field(args, "outputDir"),
      Field(args, "mediaDir"),
      Field(args, "rootTemplate"),
      Field(args, "templates"),
      Field(args, "mediaFiles"),
      Field(args, "slides"),
      Field(args, "outputFilename"),
      Field(args, "removeExistingSlides"))
  }

  /** The two checks made before anything else happens. */
  datatype Verdict = Accepted | MissingParameters | TemplateDirAbsent

  /** The five required properties are all truthy. An empty `slides` array is
      truthy, so it passes. */
  predicate HasRequiredFields(req: Request) {
    && IsTruthy(req.templateDir)
    && IsTruthy(req.outputDir)
    && IsTruthy(req.rootTemplate)
    && IsTruthy(req.slides)
    && IsTruthy(req.outputFilename)
  }

  function Validate(req: Request, pathExists: Json -> bool): (v: Verdict)
    ensures v == MissingParameters <==> !HasRequiredFields(req)
    ensures v == TemplateDirAbsent <==> HasRequiredFields(req) && !pathExists(req.templateDir)
    ensures v == Accepted <==> HasRequiredFields(req) && pathExists(req.templateDir)
  {
    if !HasRequiredFields(req) then MissingParameters
    else if !pathExists(req.templateDir) then TemplateDirAbsent
    else Accepted
  }

  /** The engine options: `mediaDir || templateDir`, and
      `removeExistingSlides !== false`, with verbosity 1. */
  function Config(req: Request): (c: EngineConfig)
    ensures c.templateDir == req.templateDir && c.outputDir == req.outputDir && c.verbosity == 1
    ensures IsTruthy(c.mediaDir) <==> IsTruthy(req.mediaDir) || IsTruthy(req.templateDir)
    ensures IsTruthy(req.mediaDir) ==> c.mediaDir == req.mediaDir
    ensures !c.removeExistingSlides <==> req.removeExistingSlides == Bool(false)
  {
    EngineConfig(
      req.templateDir,
      req.outputDir,
      if IsTruthy(req.mediaDir) then req.mediaDir else req.templateDir,
      req.removeExistingSlides != Bool(false),
      1)
  }

  /** Body of the template loop: `pres.load(template.filename, template.label)`. */
  function LoadTemplate(template: Json): (e: Result<Effect, Thrown>)
    ensures e.Failure? <==> IsNullish(template)
    ensures e.Failure? ==> e.error == ReadOfNullish(template, "filename")
    ensures e.Success? ==> e.value == Load(Field(template, "filename"), Field(template, "label"))
  {
    match Prop(template, "filename")
    case Failure(err) => Failure(err)
    case Success(filename) => Success(Load(filename, Field(template, "label")))
  }

  /** Body of the slide loop: `pres.addSlide(slideConfig.template,
      slideConfig.slideNumber, callback)`. */
  function AddSlideFor(slideConfig: Json): (e: Result<Effect, Thrown>)
    ensures e.Failure? <==> IsNullish(slideConfig)
    ensures e.Failure? ==> e.error == ReadOfNullish(slideConfig, "template")
    ensures e.Success? ==> e.value == AddSlide(Field(slideConfig, "template"), Field(slideConfig, "slideNumber"),
                                               Callback(slideConfig))
  {
    match Prop(slideConfig, "template")
    case Failure(err) => Failure(err)
    case Success(template) =>
      Success(AddSlide(template, Field(slideConfig, "slideNumber"), Callback(slideConfig)))
  }

  /** The template loop, run only when `templates` is an array: one `load`
      per entry, in order, up to the first nullish entry. */
  function TemplateLoads(req: Request): (r: Run<Effect>)
    ensures !req.templates.Arr? ==> r == Run([], None)
    ensures |r.done| <= |Items(req.templates)|
    ensures r.fault.Some? ==> |r.done| < |Items(req.templates)|
    ensures forall i :: 0 <= i < |r.done| ==>
              r.done[i] == Load(Field(Items(req.templates)[i], "filename"), Field(Items(req.templates)[i], "label"))
    ensures r.fault.None? ==> |r.done| == |Items(req.templates)|
    ensures r.fault.Some? ==> IsNullish(Items(req.templates)[|r.done|])
    ensures forall i :: 0 <= i < |r.done| ==> !IsNullish(Items(req.templates)[i])
    ensures r.fault.Some? ==> r.fault.value == ReadOfNullish(Items(req.templates)[|r.done|], "filename")
  {
    if IsPresentArray(req.templates) then Traverse(req.templates.items, LoadTemplate) else Empty()
  }

  /** The media load, made once with the whole list when `mediaFiles` is an
      array. */
  function MediaLoad(req: Request): (r: Run<Effect>)
    ensures r.fault.None?
    ensures |r.done| <= 1 && (|r.done| == 1 <==> req.mediaFiles.Arr?)
    ensures forall i :: 0 <= i < |r.done| ==> r.done[i] == LoadMedia(Items(req.mediaFiles))
  {
    if IsPresentArray(req.mediaFiles) then Run([LoadMedia(req.mediaFiles.items)], None) else Empty()
  }

  /** The slide loop: iterating `slides` throws unless it is an array or a
      string; then one `addSlide` per entry, up to the first nullish entry. */
  function SlideAdds(req: Request): (r: Run<Effect>)
    ensures !req.slides.Arr? && !req.slides.Str? ==> r == Run([], Some(NotIterable("args.slides")))
    ensures forall i :: 0 <= i < |r.done| ==> r.done[i].AddSlide?
    ensures r.fault.Some? ==> r.fault.value.ReadOfNullish? || r.fault.value == NotIterable("args.slides")
    ensures (req.slides.Arr? || req.slides.Str?) && r.fault.Some? ==>
              r.fault.value.ReadOfNullish? && IsNullish(r.fault.value.base)
    ensures var it := Iterate(req.slides, "args.slides");
            it.Success? ==>
              && (r.fault.None? <==> |r.done| == |it.value|)
              && (r.fault.Some? ==> |r.done| < |it.value|
                                    && r.fault.value == ReadOfNullish(it.value[|r.done|], "template"))
  {
    match Iterate(req.slides, "args.slides")
    case Failure(err) => Run([], Some(err))
    case Success(slideConfigs) =>
      var r := Traverse(slideConfigs, AddSlideFor);
      assert forall i :: 0 <= i < |r.done| ==> AddSlideFor(slideConfigs[i]) == Success(r.done[i]);
      r
  }

  /** The effects before the first template load: the directory creation
      (only when the output directory is missing), the engine's creation and
      the root template's load. */
  function Setup(req: Request, outputDirExists: bool): seq<Effect> {
    (if outputDirExists then [] else [MakeDirectory(req.outputDir)])
    + [CreateEngine(Config(req)), LoadRoot(req.rootTemplate)]
  }

  /** The loops and the final write, each starting only if the previous part
      did not throw. */
  function AfterSetup(req: Request): Run<Effect> {
    Then(TemplateLoads(req),
    Then(MediaLoad(req),
    Then(SlideAdds(req),
         Run([Write(req.outputFilename)], None))))
  }

  /** Everything the handler does after validation when no foreign call
      throws: the effects in order, and the TypeError (if any) that the
      handler's own property reads raise along the way. */
  function Planned(req: Request, outputDirExists: bool): (r: Run<Effect>)
    ensures Setup(req, outputDirExists) <= r.done
    ensures r.fault.Some? ==> r.fault.value.ReadOfNullish? || r.fault.value.NotIterable?
    ensures r.fault.None? ==> |r.done| > 0 && r.done[|r.done| - 1] == Write(req.outputFilename)
  {
    Then(Run(Setup(req, outputDirExists), None), AfterSetup(req))
  }

  function Failed(message: string): GenerationResult {
    GenerationResult(false, message, None)
  }

  /** The `catch` clause: a failure whose message is the error prefix and the
      text of what was thrown. When that text comes from `String(error)` and
      the conversion itself throws, the handler's promise rejects instead. */
  function Caught(t: Thrown): (r: Reply)
    ensures r.Rejected? <==> t.Raised? && t.error.OtherValue? && !Convertible(t.error.value)
    ensures r.Rejected? ==> r.error == NoPrimitive
    ensures r.Resolved? ==> !r.result.success && r.result.outputPath.None?
                            && StartsWith(ErrorPrefix, r.result.message)
    ensures r.Resolved? ==> r.result.message == ErrorPrefix + Describe(t).value
  {
    match Describe(t)
    case Success(text) => Resolved(Failed(ErrorPrefix + text))
    case Failure(e) => Rejected(e)
  }

  /** The handler once `args` can be read. A validation failure performs no
      effect at all; otherwise the planned effects run until the first one
      that throws, or until the handler's own TypeError, or to the end — and
      only in that last case, when `path.join` returns, is the result a
      success, carrying the joined output path. */
  function Generate(req: Request, host: Host): (o: Outcome)
    ensures o.reply.Resolved? ==> (o.reply.result.outputPath.Some? <==> o.reply.result.success)
    ensures Succeeded(o) ==>
              && host.join(req.outputDir, req.outputFilename).Success?
              && o.reply.result.outputPath == Some(host.join(req.outputDir, req.outputFilename).value)
              && o.reply.result.message == SuccessPrefix + o.reply.result.outputPath.value
    ensures o.reply.Rejected? ==>
              && Validate(req, host.pathExists) == Accepted
              && host.failure.Some? && host.failure.value.error.OtherValue?
              && !Convertible(host.failure.value.error.value)
              && o.reply.error == NoPrimitive
    ensures Validate(req, host.pathExists) == MissingParameters ==>
              o == Outcome([], Resolved(Failed(MissingParametersMessage)))
    ensures Validate(req, host.pathExists) == TemplateDirAbsent ==>
              && o.effects == []
              && (Convertible(req.templateDir) ==>
                    o.reply == Resolved(Failed(TemplateDirPrefix + ToJsString(req.templateDir).value)))
              && (!Convertible(req.templateDir) ==>
                    o.reply == Resolved(Failed(ErrorPrefix + "Cannot convert object to primitive value")))
    ensures Validate(req, host.pathExists) == Accepted ==>
              var plan := Planned(req, host.pathExists(req.outputDir));
              && |o.effects| > 0
              && o.effects <= plan.done
              && (o.reply.Resolved? && !o.reply.result.success ==> StartsWith(ErrorPrefix, o.reply.result.message))
              && (Succeeded(o) <==>
                    && plan.fault.None?
                    && (host.failure.None? || host.failure.value.step >= |plan.done|)
                    && host.join(req.outputDir, req.outputFilename).Success?)
    ensures Validate(req, host.pathExists) == Accepted ==>
              var plan := Planned(req, host.pathExists(req.outputDir));
              var joined := host.join(req.outputDir, req.outputFilename);
              (host.failure.None? || host.failure.value.step >= |plan.done|) ==>
                && (plan.fault.Some? ==> o == Outcome(plan.done, Caught(plan.fault.value)))
                && (plan.fault.None? && joined.Failure? ==>
                      o == Outcome(plan.done, Caught(Raised(ErrorInstance(joined.error)))))
  {
    match Validate(req, host.pathExists)
    case MissingParameters => Outcome([], Resolved(Failed(MissingParametersMessage)))
    case TemplateDirAbsent =>
      (match ToJsString(req.templateDir)
       case Success(dir) => Outcome([], Resolved(Failed(TemplateDirPrefix + dir)))
       case Failure(e) => Outcome([], Caught(e)))
    case Accepted =>
      var plan := Planned(req, host.pathExists(req.outputDir));
      if host.failure.Some? && host.failure.value.step < |plan.done| then
        var k := host.failure.value.step;
        Outcome(plan.done[..k + 1], Caught(Raised(host.failure.value.error)))
      else if plan.fault.Some? then
        Outcome(plan.done, Caught(plan.fault.value))
      else
        match host.join(req.outputDir, req.outputFilename)
        case Failure(message) => Outcome(plan.done, Caught(Raised(ErrorInstance(message))))
        case Success(outputPath) =>
          Outcome(plan.done, Resolved(GenerationResult(true, SuccessPrefix + outputPath, Some(outputPath))))
  }

  /** `generateSlideshow(args)`, where `args` is the optional `arguments` of
      the tool call. When it is absent, the first property read throws inside
      the `try`, and the `catch` reports that TypeError. */
  function GenerateSlideshow(args: Json, host: Host): (o: Outcome)
    ensures IsNullish(args) ==>
              o == Outcome([], Resolved(Failed(ErrorPrefix + Describe(ReadOfNullish(args, "templateDir")).value)))
    ensures !IsNullish(args) ==> o == Generate(RequestOf(args), host)
  {
    match Prop(args, "templateDir")
    case Failure(e) => Outcome([], Caught(e))
    case Success(_) => Generate(RequestOf(args), host)
  }
}

=== FILE: slideshow_properties.dfy ===
/**
 * Properties of the request handler that relate several of its parts: the
 * exact effect trace of a successful run against an independent description
 * of it, where the output directory is created, what an engine failure cuts
 * off, the engine-option defaults, and how the failure messages tell the
 * stages apart.
 */
module SlideshowProperties {
  import opened Wrappers
  import opened JsValues
  import opened Runs
  import opened ReplacementMapper
  import opened SlidePlan
  import opened Slideshow

  /** The handler's own property reads never throw: every template entry
      (when `templates` is an array) and every slide entry is an object or a
      primitive, and `slides` can be iterated. */
  predicate WellShaped(req: Request) {
    && (forall i :: 0 <= i < |Items(req.templates)| ==> !IsNullish(Items(req.templates)[i]))
    && Iterate(req.slides, "args.slides").Success?
    && forall i :: 0 <= i < |Iterate(req.slides, "args.slides").value| ==>
         !IsNullish(Iterate(req.slides, "args.slides").value[i])
  }

  /** No slide callback throws when the engine runs it. A TypeError inside a
      callback is not one of the handler's own throws: it reaches the `catch`
      clause only through the engine, so a successful run needs this too. */
  predicate CallbacksHold(req: Request) {
    Iterate(req.slides, "args.slides").Success? ==>
      forall i :: 0 <= i < |Iterate(req.slides, "args.slides").value| ==>
        Callback(Iterate(req.slides, "args.slides").value[i]).fault.None?
  }

  function TemplateLoadTrace(req: Request): seq<Effect> {
    var ts := Items(req.templates);
    seq(|ts|, i requires 0 <= i < |ts| => Load(Field(ts[i], "filename"), Field(ts[i], "label")))
  }

  function SlideAddTrace(slideConfigs: seq<Json>): seq<Effect> {
    seq(|slideConfigs|, i requires 0 <= i < |slideConfigs| =>
          AddSlide(Field(slideConfigs[i], "template"), Field(slideConfigs[i], "slideNumber"),
                   Callback(slideConfigs[i])))
  }

  /** The trace of a run in which nothing throws, written out directly:
      mkdir (only when the output directory is missing), create the engine,
      load the root template, one load per auxiliary template, at most one
      media load, one slide append per slide, one write. */
  function ExpectedTrace(req: Request, outputDirExists: bool): seq<Effect>
    requires WellShaped(req)
  {
    ((if outputDirExists then [] else [MakeDirectory(req.outputDir)])
     + [CreateEngine(Config(req)), LoadRoot(req.rootTemplate)])
    + (TemplateLoadTrace(req)
       + (if IsPresentArray(req.mediaFiles) then [LoadMedia(Items(req.mediaFiles))] else [])
       + SlideAddTrace(Iterate(req.slides, "args.slides").value)
       + [Write(req.outputFilename)])
  }

  /** The template loop throws iff some entry is nullish; otherwise it makes
      exactly one `load` per entry, in order. */
  lemma TemplateLoadsAsExpected(req: Request)
    ensures TemplateLoads(req).fault.None? <==>
              forall i :: 0 <= i < |Items(req.templates)| ==> !IsNullish(Items(req.templates)[i])
    ensures TemplateLoads(req).fault.None? ==> TemplateLoads(req).done == TemplateLoadTrace(req)
  {
    if IsPresentArray(req.templates) {
      TraverseFaultIsFirstFailure(req.templates.items, LoadTemplate);
      if TemplateLoads(req).fault.None? {
        TraverseTotal(req.templates.items, LoadTemplate);
      }
    }
  }

  /** The slide loop throws iff `slides` is not iterable or some entry is
      nullish; otherwise it makes exactly one `addSlide` per entry, in order. */
  lemma SlideAddsAsExpected(req: Request)
    ensures SlideAdds(req).fault.None? <==>
              && Iterate(req.slides, "args.slides").Success?
              && forall i :: 0 <= i < |Iterate(req.slides, "args.slides").value| ==>
                   !IsNullish(Iterate(req.slides, "args.slides").value[i])
    ensures SlideAdds(req).fault.None? ==>
              SlideAdds(req).done == SlideAddTrace(Iterate(req.slides, "args.slides").value)
  {
    var it := Iterate(req.slides, "args.slides");
    if it.Success? {
      TraverseFaultIsFirstFailure(it.value, AddSlideFor);
      if SlideAdds(req).fault.None? {
        TraverseTotal(it.value, AddSlideFor);
      }
    }
  }

  /** The planned run is the setup followed by the loops and the write. */
  lemma PlannedSplit(req: Request, outputDirExists: bool)
    ensures Planned(req, outputDirExists).done == Setup(req, outputDirExists) + AfterSetup(req).done
    ensures Planned(req, outputDirExists).fault == AfterSetup(req).fault
  {
  }

  /** The loops and the write throw only through the template or slide
      loop, and when neither throws their effects follow one another in
      order: template loads, media load, slide appends, write. */
  lemma AfterSetupParts(req: Request)
    ensures AfterSetup(req).fault.None? <==> TemplateLoads(req).fault.None? && SlideAdds(req).fault.None?
    ensures AfterSetup(req).fault.None? ==>
              AfterSetup(req).done
              == TemplateLoads(req).done + MediaLoad(req).done + SlideAdds(req).done + [Write(req.outputFilename)]
  {
    var templates, media, slides := TemplateLoads(req), MediaLoad(req), SlideAdds(req);
    var tail := Then(slides, Run([Write(req.outputFilename)], None));
    var fromMedia := Then(media, tail);
    assert AfterSetup(req) == Then(templates, fromMedia);
    assert media.fault.None?;
  }

  /** The handler raises a TypeError of its own exactly when the request is
      not well shaped. */
  lemma PlannedFaultFreeIffWellShaped(req: Request, outputDirExists: bool)
    ensures Planned(req, outputDirExists).fault.None? <==> WellShaped(req)
  {
    TemplateLoadsAsExpected(req);
    SlideAddsAsExpected(req);
    PlannedSplit(req, outputDirExists);
    AfterSetupParts(req);
  }

  /** A well-shaped request's planned effects are the expected trace,
      element for element, and nothing throws. */
  lemma PlannedIsExpectedTrace(req: Request, outputDirExists: bool)
    requires WellShaped(req)
    ensures Planned(req, outputDirExists) == Run(ExpectedTrace(req, outputDirExists), None)
  {
    PlannedFaultFreeIffWellShaped(req, outputDirExists);
    TemplateLoadsAsExpected(req);
    SlideAddsAsExpected(req);
    PlannedSplit(req, outputDirExists);
    AfterSetupParts(req);
    assert MediaLoad(req).done == (if IsPresentArray(req.mediaFiles) then [LoadMedia(Items(req.mediaFiles))] else []);
  }

  /** A well-shaped, accepted request on which no foreign call throws
      performs exactly the expected trace and succeeds with the joined path. */
  lemma SuccessTrace(req: Request, host: Host)
    requires Validate(req, host.pathExists) == Accepted
    requires host.failure.None?
    requires host.join(req.outputDir, req.outputFilename).Success?
    requires WellShaped(req) && CallbacksHold(req)
    ensures Generate(req, host).effects == ExpectedTrace(req, host.pathExists(req.outputDir))
    ensures var path := host.join(req.outputDir, req.outputFilename).value;
            Generate(req, host).reply == Resolved(GenerationResult(true, SuccessPrefix + path, Some(path)))
  {
    PlannedIsExpectedTrace(req, host.pathExists(req.outputDir));
    assert Planned(req, host.pathExists(req.outputDir)).fault.None?;
  }

  /** When the foreign call at index `k` of the planned trace throws, the
      trace stops right after it, and the `catch` clause reports the error:
      a failure whose message is the fixed prefix followed by the error's
      text, or a rejection when that text cannot be produced. */
  lemma EngineFailureStopsTrace(req: Request, host: Host)
    requires Validate(req, host.pathExists) == Accepted
    requires host.failure.Some?
    requires host.failure.value.step < |Planned(req, host.pathExists(req.outputDir)).done|
    ensures var plan := Planned(req, host.pathExists(req.outputDir));
            var k := host.failure.value.step;
            && Generate(req, host).effects == plan.done[..k + 1]
            && Generate(req, host).effects[k] == plan.done[k]
            && Generate(req, host).reply == Caught(Raised(host.failure.value.error))
  {
  }

  /** When the handler's own property read or loop throws before any
      foreign call does, every planned effect has happened and the `catch`
      clause reports the TypeError's text after the error prefix; the
      handler never rejects for it. */
  lemma OwnFaultReported(req: Request, host: Host)
    requires Validate(req, host.pathExists) == Accepted
    requires Planned(req, host.pathExists(req.outputDir)).fault.Some?
    requires host.failure.None? || host.failure.value.step >= |Planned(req, host.pathExists(req.outputDir)).done|
    ensures var plan := Planned(req, host.pathExists(req.outputDir));
            && Describe(plan.fault.value).Success?
            && Generate(req, host)
               == Outcome(plan.done, Resolved(Failed(ErrorPrefix + Describe(plan.fault.value).value)))
  {
  }

  /** When every planned effect succeeds but `path.join` throws, the run
      reports that error's message after the error prefix. */
  lemma JoinFailureReported(req: Request, host: Host)
    requires Validate(req, host.pathExists) == Accepted
    requires Planned(req, host.pathExists(req.outputDir)).fault.None?
    requires host.failure.None? || host.failure.value.step >= |Planned(req, host.pathExists(req.outputDir)).done|
    requires host.join(req.outputDir, req.outputFilename).Failure?
    ensures Generate(req, host)
            == Outcome(Planned(req, host.pathExists(req.outputDir)).done,
                       Resolved(Failed(ErrorPrefix + host.join(req.outputDir, req.outputFilename).error)))
  {
  }

  /** The effects the loops and the write can make. */
  predicate IsLoopEffect(e: Effect) {
    e.Load? || e.LoadMedia? || e.AddSlide? || e.Write?
  }

  /** Every effect of the template loop is a `load`. */
  lemma TemplateLoadsOnlyLoad(req: Request)
    ensures forall i :: 0 <= i < |TemplateLoads(req).done| ==> TemplateLoads(req).done[i].Load?
  {
    var templates := TemplateLoads(req);
    if IsPresentArray(req.templates) {
      forall i | 0 <= i < |templates.done| ensures templates.done[i].Load? {
        assert LoadTemplate(req.templates.items[i]) == Success(templates.done[i]);
      }
    }
  }

  /** Every effect of the slide loop is an `addSlide`. */
  lemma SlideAddsOnlyAddSlide(req: Request)
    ensures forall i :: 0 <= i < |SlideAdds(req).done| ==> SlideAdds(req).done[i].AddSlide?
  {
    var slides := SlideAdds(req);
    var it := Iterate(req.slides, "args.slides");
    if it.Success? {
      forall i | 0 <= i < |slides.done| ensures slides.done[i].AddSlide? {
        assert AddSlideFor(it.value[i]) == Success(slides.done[i]);
      }
    }
  }

  /** After the setup, only loads, slide appends and the write happen. */
  lemma AfterSetupOnlyLoopEffects(req: Request)
    ensures AllDone(AfterSetup(req), IsLoopEffect)
  {
    TemplateLoadsOnlyLoad(req);
    SlideAddsOnlyAddSlide(req);
    var write := Run([Write(req.outputFilename)], None);
    ThenAllDone(SlideAdds(req), write, IsLoopEffect);
    var tail := Then(SlideAdds(req), write);
    ThenAllDone(MediaLoad(req), tail, IsLoopEffect);
    ThenAllDone(TemplateLoads(req), Then(MediaLoad(req), tail), IsLoopEffect);
  }

  /** No effect after the setup is a directory creation. */
  lemma AfterSetupMakesNoDirectory(req: Request)
    ensures forall i :: 0 <= i < |AfterSetup(req).done| ==> !AfterSetup(req).done[i].MakeDirectory?
  {
    AfterSetupOnlyLoopEffects(req);
    var rest := AfterSetup(req).done;
    forall i | 0 <= i < |rest| ensures !rest[i].MakeDirectory? {
      assert IsLoopEffect(rest[i]);
    }
  }

  /** The setup creates a directory only as its first effect, and only when
      the output directory is missing. */
  lemma SetupMakesDirectoryOnlyFirst(req: Request, outputDirExists: bool)
    ensures var setup := Setup(req, outputDirExists);
            |setup| > 0
            && (setup[0] == MakeDirectory(req.outputDir) <==> !outputDirExists)
            && forall i :: 0 < i < |setup| ==> !setup[i].MakeDirectory?
  {
  }

  /** Appending effects that create no directory keeps a trace's directory
      creations where they were. */
  lemma AppendKeepsDirectoriesFirst(setup: seq<Effect>, rest: seq<Effect>)
    requires |setup| > 0
    requires forall i :: 0 < i < |setup| ==> !setup[i].MakeDirectory?
    requires forall i :: 0 <= i < |rest| ==> !rest[i].MakeDirectory?
    ensures (setup + rest)[0] == setup[0]
    ensures forall i :: 0 < i < |setup + rest| ==> !(setup + rest)[i].MakeDirectory?
  {
    var d := setup + rest;
    forall i | 0 < i < |d| ensures !d[i].MakeDirectory? {
      if i >= |setup| {
        assert d[i] == rest[i - |setup|];
      }
    }
  }

  /** The planned trace never contains a directory creation except possibly
      as its first effect, and it is there iff the directory is missing. */
  lemma PlannedMakesDirectoryOnlyFirst(req: Request, outputDirExists: bool)
    ensures var d := Planned(req, outputDirExists).done;
            |d| > 0
            && (d[0] == MakeDirectory(req.outputDir) <==> !outputDirExists)
            && forall i :: 0 < i < |d| ==> !d[i].MakeDirectory?
  {
    var setup := Setup(req, outputDirExists);
    var rest := AfterSetup(req).done;
    PlannedSplit(req, outputDirExists);
    SetupMakesDirectoryOnlyFirst(req, outputDirExists);
    AfterSetupMakesNoDirectory(req);
    AppendKeepsDirectoriesFirst(setup, rest);
  }

  /** The output directory is created only after both checks pass, only when
      it is missing, and then before any engine call. */
  lemma OutputDirectoryCreatedOnlyWhenMissing(req: Request, host: Host)
    ensures var o := Generate(req, host);
            (exists i :: 0 <= i < |o.effects| && o.effects[i].MakeDirectory?)
            <==> Validate(req, host.pathExists) == Accepted && !host.pathExists(req.outputDir)
    ensures var o := Generate(req, host);
            Validate(req, host.pathExists) == Accepted && !host.pathExists(req.outputDir)
            ==> o.effects[0] == MakeDirectory(req.outputDir)
  {
    var o := Generate(req, host);
    if Validate(req, host.pathExists) == Accepted {
      var d := Planned(req, host.pathExists(req.outputDir)).done;
      PlannedMakesDirectoryOnlyFirst(req, host.pathExists(req.outputDir));
      assert o.effects <= d;
      assert o.effects[0] == d[0];
      forall i | 0 < i < |o.effects| ensures !o.effects[i].MakeDirectory? {
        assert o.effects[i] == d[i];
      }
    }
  }

  /** `mediaDir` falls back to `templateDir` when it is falsy, so the engine
      always receives a truthy media directory once the request is accepted;
      `removeExistingSlides` is false only for the literal `false` — absent,
      `null`, `0`, `""` and the string `"false"` all leave it on. */
  lemma EngineConfigDefaults(req: Request)
    ensures IsTruthy(req.mediaDir) ==> Config(req).mediaDir == req.mediaDir
    ensures !IsTruthy(req.mediaDir) ==> Config(req).mediaDir == req.templateDir
    ensures HasRequiredFields(req) ==> IsTruthy(Config(req).mediaDir)
    ensures !Config(req).removeExistingSlides <==> req.removeExistingSlides == Bool(false)
    ensures req.removeExistingSlides in {Undefined, Null, Num(0), Str(""), Str("false"), Bool(true)}
            ==> Config(req).removeExistingSlides
    ensures Config(req).templateDir == req.templateDir && Config(req).outputDir == req.outputDir
  {
  }

  /** Defaulting is idempotent: feeding the engine options back in as the
      request's `mediaDir` and `removeExistingSlides` yields the same
      options. */
  lemma ConfigIsIdempotent(req: Request)
    ensures var c := Config(req);
            Config(req.(mediaDir := c.mediaDir, removeExistingSlides := Bool(c.removeExistingSlides))) == c
  {
  }

  /** The three kinds of failure message begin differently. */
  lemma MessagesBeginDifferently()
    ensures |MissingParametersMessage| > 0 && MissingParametersMessage[0] == 'M'
    ensures |TemplateDirPrefix| > 0 && TemplateDirPrefix[0] == 'T'
    ensures |ErrorPrefix| > 0 && ErrorPrefix[0] == 'E'
  {
    assert MissingParametersMessage[0] == "Missing required parameters: "[0];
  }

  /** A failure message tells the stage apart: the missing-parameters text
      iff a required property is falsy; the template-directory text iff the
      directory is absent and its name converts to a string; and the
      engine-error prefix otherwise — after validation, when `args` is
      absent, or when the directory's name cannot be converted. */
  lemma FailureMessageIdentifiesStage(args: Json, host: Host)
    requires GenerateSlideshow(args, host).reply.Resolved?
    requires !GenerateSlideshow(args, host).reply.result.success
    ensures var m := GenerateSlideshow(args, host).reply.result.message;
            var v := Validate(RequestOf(args), host.pathExists);
            && (m == MissingParametersMessage <==> !IsNullish(args) && v == MissingParameters)
            && (StartsWith(TemplateDirPrefix, m) <==>
                  !IsNullish(args) && v == TemplateDirAbsent && Convertible(RequestOf(args).templateDir))
            && (StartsWith(ErrorPrefix, m) <==>
                  || IsNullish(args)
                  || v == Accepted
                  || (v == TemplateDirAbsent && !Convertible(RequestOf(args).templateDir)))
  {
    MessagesBeginDifferently();
    var m := GenerateSlideshow(args, host).reply.result.message;
    var req := RequestOf(args);
    if IsNullish(args) {
      assert StartsWith(ErrorPrefix, m);
      assert m[0] == 'E';
    } else {
      match Validate(req, host.pathExists)
      case MissingParameters =>
        assert m[0] == 'M';
      case TemplateDirAbsent =>
        if Convertible(req.templateDir) {
          assert m == TemplateDirPrefix + ToJsString(req.templateDir).value;
          assert m[0] == 'T';
        } else {
          assert StartsWith(ErrorPrefix, m);
          assert m[0] == 'E';
        }
      case Accepted =>
        assert StartsWith(ErrorPrefix, m);
        assert m[0] == 'E';
    }
  }

  /** An absent `arguments` object fails with the TypeError of the first
      property read, and nothing else happens. */
  lemma AbsentArgumentsFail(host: Host)
    ensures GenerateSlideshow(Undefined, host)
            == Outcome([], Resolved(Failed(ErrorPrefix + "Cannot read properties of undefined (reading 'templateDir')")))
  {
    ReadOfUndefinedMessage("templateDir");
    assert "Cannot read properties of undefined (reading '" + "templateDir" + "')"
           == "Cannot read properties of undefined (reading 'templateDir')";
  }

  /** A missing template directory whose name is an object with its own
      `toString` key: building the message throws inside the `try`, so the
      reply carries the engine-error prefix instead of the template-directory
      text. */
  lemma UnconvertibleTemplateDirFails(req: Request, host: Host)
    requires HasRequiredFields(req) && !host.pathExists(req.templateDir)
    requires req.templateDir.Obj? && "toString" in req.templateDir.fields
    ensures Generate(req, host) == Outcome([], Resolved(Failed(ErrorPrefix + "Cannot convert object to primitive value")))
  {
  }

  /** A foreign call that throws a value which is not an `Error` and which
      `String()` cannot convert makes the `catch` clause itself throw: the
      handler's promise rejects, after the effects up to that call. */
  lemma UnconvertibleThrownValueRejects(req: Request, host: Host)
    requires Validate(req, host.pathExists) == Accepted
    requires host.failure.Some? && host.failure.value.step < |Planned(req, host.pathExists(req.outputDir)).done|
    requires host.failure.value.error.OtherValue? && !Convertible(host.failure.value.error.value)
    ensures Generate(req, host).reply == Rejected(NoPrimitive)
    ensures |Generate(req, host).effects| == host.failure.value.step + 1
  {
    EngineFailureStopsTrace(req, host);
  }

  /** An empty `slides` array passes validation: the run still creates the
      engine, loads the root template and writes the output. */
  lemma EmptySlidesStillWrite(req: Request, host: Host)
    requires req.slides == Arr([])
    requires IsTruthy(req.templateDir) && IsTruthy(req.outputDir)
    requires IsTruthy(req.rootTemplate) && IsTruthy(req.outputFilename)
    requires host.pathExists(req.templateDir) && host.pathExists(req.outputDir)
    requires !req.templates.Arr? && !req.mediaFiles.Arr?
    requires host.failure.None? && host.join(req.outputDir, req.outputFilename).Success?
    ensures Generate(req, host).effects
            == [CreateEngine(Config(req)), LoadRoot(req.rootTemplate), Write(req.outputFilename)]
    ensures Succeeded(Generate(req, host))
  {
    SuccessTrace(req, host);
  }

  /** A truthy string in `slides` is iterated character by character: one
      slide append per character, each with an undefined template and slide
      number and a callback that does nothing. */
  lemma StringSlidesAddOneSlidePerCharacter(req: Request, s: string)
    requires req.slides == Str(s)
    ensures SlideAdds(req).fault.None?
    ensures |SlideAdds(req).done| == |s|
    ensures forall i :: 0 <= i < |s| ==> SlideAdds(req).done[i] == AddSlide(Undefined, Undefined, Run([], None))
  {
    var cs := Iterate(req.slides, "args.slides").value;
    TraverseTotal(cs, AddSlideFor);
  }

  /** The effects made before the slide loop. */
  predicate IsBeforeSlides(e: Effect) {
    !e.AddSlide? && !e.Write?
  }

  /** The setup happens before the slide loop. */
  lemma SetupBeforeSlides(req: Request, outputDirExists: bool)
    ensures forall i :: 0 <= i < |Setup(req, outputDirExists)| ==> IsBeforeSlides(Setup(req, outputDirExists)[i])
  {
  }

  /** Two stretches of effects made before the slide loop, one after the
      other, are still made before it. */
  lemma ConcatBeforeSlides(xs: seq<Effect>, ys: seq<Effect>)
    requires forall i :: 0 <= i < |xs| ==> IsBeforeSlides(xs[i])
    requires forall i :: 0 <= i < |ys| ==> IsBeforeSlides(ys[i])
    ensures forall i :: 0 <= i < |xs + ys| ==> IsBeforeSlides((xs + ys)[i])
  {
    forall i | 0 <= i < |xs + ys| ensures IsBeforeSlides((xs + ys)[i]) {
      if i >= |xs| {
        assert (xs + ys)[i] == ys[i - |xs|];
      }
    }
  }

  /** When the slide loop throws before its first append, the planned run
      stops after the media load with the slide loop's exception. */
  lemma PlannedWhenSlideLoopThrowsFirst(req: Request, outputDirExists: bool, err: Thrown)
    requires TemplateLoads(req).fault.None?
    requires SlideAdds(req) == Run([], Some(err))
    ensures Planned(req, outputDirExists).fault == Some(err)
    ensures forall i :: 0 <= i < |Planned(req, outputDirExists).done| ==>
              IsBeforeSlides(Planned(req, outputDirExists).done[i])
  {
    PlannedSplit(req, outputDirExists);
    TemplateLoadsOnlyLoad(req);
    var tail := Then(SlideAdds(req), Run([Write(req.outputFilename)], None));
    assert tail == SlideAdds(req);
    ThenAllDone(MediaLoad(req), tail, IsBeforeSlides);
    ThenAllDone(TemplateLoads(req), Then(MediaLoad(req), tail), IsBeforeSlides);
    SetupBeforeSlides(req, outputDirExists);
    ConcatBeforeSlides(Setup(req, outputDirExists), AfterSetup(req).done);
  }

  /** When the template loop throws, the planned run stops there with that
      exception, before any slide append and before the write. */
  lemma PlannedWhenTemplateLoopThrows(req: Request, outputDirExists: bool)
    requires TemplateLoads(req).fault.Some?
    ensures Planned(req, outputDirExists).fault == TemplateLoads(req).fault
    ensures forall i :: 0 <= i < |Planned(req, outputDirExists).done| ==>
              IsBeforeSlides(Planned(req, outputDirExists).done[i])
  {
    PlannedSplit(req, outputDirExists);
    assert AfterSetup(req) == TemplateLoads(req);
    var rest := TemplateLoads(req).done;
    assert forall i :: 0 <= i < |rest| ==> rest[i].Load?;
    SetupBeforeSlides(req, outputDirExists);
    ConcatBeforeSlides(Setup(req, outputDirExists), rest);
  }

  /** A truthy `slides` that is neither an array nor a string makes the
      handler throw before any slide is appended and before the write; when
      nothing threw earlier, the message names the loop's TypeError. */
  lemma NonIterableSlidesNeverWrite(req: Request, host: Host)
    requires Validate(req, host.pathExists) == Accepted
    requires !req.slides.Arr? && !req.slides.Str?
    ensures var o := Generate(req, host);
            && !Succeeded(o)
            && (forall i :: 0 <= i < |o.effects| ==> !o.effects[i].Write? && !o.effects[i].AddSlide?)
            && (host.failure.None? && TemplateLoads(req).fault.None? ==>
                  o.reply == Resolved(Failed(ErrorPrefix + "args.slides is not iterable")))
  {
    var dirExists := host.pathExists(req.outputDir);
    if TemplateLoads(req).fault.None? {
      PlannedWhenSlideLoopThrowsFirst(req, dirExists, NotIterable("args.slides"));
      NotIterableMessage("args.slides");
      assert "args.slides" + " is not iterable" == "args.slides is not iterable";
    } else {
      PlannedWhenTemplateLoopThrows(req, dirExists);
    }
    var d := Planned(req, dirExists).done;
    var o := Generate(req, host);
    forall i | 0 <= i < |o.effects| ensures !o.effects[i].Write? && !o.effects[i].AddSlide? {
      assert o.effects[i] == d[i];
      assert IsBeforeSlides(d[i]);
    }
  }

  function ExampleTemplate(): Json {
    Obj(map["filename" := Str("TextReplace.pptx"), "label" := Str("text")])
  }

  function ExampleGroup(): Json {
    Obj(map["element" := Str("box"),
            "replacements" := Arr([TextEntry("a", "1"), TextEntry("b", "2")])])
  }

  function ExampleSlide(): Json {
    Obj(map["template" := Str("text"), "slideNumber" := Num(1), "textReplacements" := Arr([ExampleGroup()])])
  }

  /** The end-to-end example request: root template "Root.pptx", one
      auxiliary template labelled "text", one slide with one text group of
      two tags, output file "out.pptx", in the given directories. */
  function ExampleRequest(templateDir: string, outputDir: string): Request
    requires templateDir != "" && outputDir != ""
  {
    Request(Str(templateDir), Str(outputDir), Undefined, Str("Root.pptx"), Arr([ExampleTemplate()]),
            Undefined, Arr([ExampleSlide()]), Str("out.pptx"), Undefined)
  }

  /** The example slide's callback makes one text call and nothing else. */
  function ExampleCall(): SlideCall {
    ModifyElement(Str("box"),
      ReplaceText([Replacement(Str("a"), ReplacementBy(Str("1"), None)),
                   Replacement(Str("b"), ReplacementBy(Str("2"), None))], TagDelimiters))
  }

  /** The example's text group maps its two plain entries, in order. */
  lemma ExampleTextCall()
    ensures TextCall(ExampleGroup()) == Success(ExampleCall())
  {
    var rs := [TextEntry("a", "1"), TextEntry("b", "2")];
    PlainEntryMapsWithoutStyle("a", "1");
    PlainEntryMapsWithoutStyle("b", "2");
    TraverseTotal(rs, MapEntry);
    var out := Traverse(rs, MapEntry).done;
    assert out == [out[0], out[1]];
    assert Field(ExampleGroup(), "replacements") == Arr(rs);
  }

  /** The example slide's callback makes its one text call and nothing
      else. */
  lemma ExampleCallback()
    ensures Callback(ExampleSlide()) == Run([ExampleCall()], None)
  {
    ExampleTextCall();
    assert Field(ExampleSlide(), "textReplacements") == Arr([ExampleGroup()]);
    assert Field(ExampleSlide(), "imageReplacements") == Undefined;
    TraverseTotal([ExampleGroup()], TextCall);
  }

  lemma ExampleWellShaped(templateDir: string, outputDir: string)
    requires templateDir != "" && outputDir != ""
    ensures WellShaped(ExampleRequest(templateDir, outputDir))
    ensures TemplateLoadTrace(ExampleRequest(templateDir, outputDir)) == [Load(Str("TextReplace.pptx"), Str("text"))]
    ensures SlideAddTrace(Iterate(ExampleRequest(templateDir, outputDir).slides, "args.slides").value)
            == [AddSlide(Str("text"), Num(1), Callback(ExampleSlide()))]
  {
    assert Field(ExampleTemplate(), "filename") == Str("TextReplace.pptx");
    assert Field(ExampleTemplate(), "label") == Str("text");
    assert Field(ExampleSlide(), "template") == Str("text");
    assert Field(ExampleSlide(), "slideNumber") == Num(1);
  }

  /** With the output directory present and no media list, the expected
      trace is create, root load, the template loads, the slide appends and
      the write. */
  lemma ExpectedTraceWithoutMedia(req: Request)
    requires WellShaped(req) && !req.mediaFiles.Arr?
    ensures ExpectedTrace(req, true)
            == [CreateEngine(Config(req)), LoadRoot(req.rootTemplate)]
               + TemplateLoadTrace(req)
               + SlideAddTrace(Iterate(req.slides, "args.slides").value)
               + [Write(req.outputFilename)]
  {
    var loads := TemplateLoadTrace(req);
    var adds := SlideAddTrace(Iterate(req.slides, "args.slides").value);
    AppendNothing(loads, adds);
  }

  /** Proof helpers: the sequence identities behind the two lemmas above and
      below, proved once over an arbitrary element type. Kept apart so that
      the example's trace proof does not have to re-derive them over its
      concrete effects, which costs more than the solver budget allows. */
  lemma AppendNothing<T>(xs: seq<T>, ys: seq<T>)
    ensures xs + [] + ys == xs + ys
  {
  }

  lemma FiveInOrder<T>(a: T, b: T, c: T, d: T, e: T)
    ensures [a, b] + [c] + [d] + [e] == [a, b, c, d, e]
  {
  }

  /** Without a missing output directory, the example's expected trace is
      create, root load, template load, slide append, write. */
  lemma ExampleExpectedTrace(templateDir: string, outputDir: string)
    requires templateDir != "" && outputDir != ""
    ensures WellShaped(ExampleRequest(templateDir, outputDir))
    ensures ExpectedTrace(ExampleRequest(templateDir, outputDir), true)
            == [CreateEngine(Config(ExampleRequest(templateDir, outputDir))), LoadRoot(Str("Root.pptx")),
                Load(Str("TextReplace.pptx"), Str("text")),
                AddSlide(Str("text"), Num(1), Callback(ExampleSlide())),
                Write(Str("out.pptx"))]
  {
    var req := ExampleRequest(templateDir, outputDir);
    ExampleWellShaped(templateDir, outputDir);
    ExpectedTraceWithoutMedia(req);
    FiveInOrder(CreateEngine(Config(req)), LoadRoot(Str("Root.pptx")), Load(Str("TextReplace.pptx"), Str("text")),
                AddSlide(Str("text"), Num(1), Callback(ExampleSlide())), Write(Str("out.pptx")));
  }

  /** The example request passes validation when its template directory
      exists. */
  lemma ExampleAccepted(templateDir: string, outputDir: string, pathExists: Json -> bool)
    requires templateDir != "" && outputDir != ""
    requires pathExists(Str(templateDir))
    ensures Validate(ExampleRequest(templateDir, outputDir), pathExists) == Accepted
    ensures ExampleRequest(templateDir, outputDir).outputDir == Str(outputDir)
    ensures ExampleRequest(templateDir, outputDir).outputFilename == Str("out.pptx")
  {
    assert HasRequiredFields(ExampleRequest(templateDir, outputDir));
  }

  /** The end-to-end example performs five effects — create, root load,
      template load, slide append, write — and succeeds with the joined
      path. */
  lemma EndToEndExample(templateDir: string, outputDir: string, host: Host)
    requires templateDir != "" && outputDir != ""
    requires host.pathExists(Str(templateDir)) && host.pathExists(Str(outputDir))
    requires host.failure.None? && host.join(Str(outputDir), Str("out.pptx")).Success?
    ensures var o := Generate(ExampleRequest(templateDir, outputDir), host);
            var path := host.join(Str(outputDir), Str("out.pptx")).value;
            && o.reply == Resolved(GenerationResult(true, SuccessPrefix + path, Some(path)))
            && o.effects == [CreateEngine(Config(ExampleRequest(templateDir, outputDir))), LoadRoot(Str("Root.pptx")),
                             Load(Str("TextReplace.pptx"), Str("text")),
                             AddSlide(Str("text"), Num(1), Callback(ExampleSlide())),
                             Write(Str("out.pptx"))]
  {
    var req := ExampleRequest(templateDir, outputDir);
    ExampleAccepted(templateDir, outputDir, host.pathExists);
    ExampleExpectedTrace(templateDir, outputDir);
    ExampleCallbacksHold(templateDir, outputDir);
    SuccessTrace(req, host);
  }

  lemma ExampleCallbacksHold(templateDir: string, outputDir: string)
    requires templateDir != "" && outputDir != ""
    ensures CallbacksHold(ExampleRequest(templateDir, outputDir))
  {
    ExampleCallback();
    assert Iterate(ExampleRequest(templateDir, outputDir).slides, "args.slides") == Success([ExampleSlide()]);
  }
}

=== FILE: wrappers.dfy ===
/** Option and Result: the two failure-carrying datatypes the model uses. */
module Wrappers {

  datatype Option<+T> = None | Some(value: T)

  datatype Result<+T, +E> = Success(value: T) | Failure(error: E)
}
